=== FILE: README.md ===
# SIMP codec and session coordinator in Dafny

This project models the two parts of the SIMP instant-messaging system that carry real invariants.

- **The wire codec** (`simp.py`). It covers the three one-byte flag enums (`Type`, `Operation`, `Sequence`) and `parse_into`. It also covers `Header` encoding and decoding (three flag bytes, the user name, and a four-byte big-endian payload length) and `Message` encoding and decoding (the header, then the payload).
- **The server's session coordinator** (`simp_server.py`). It covers the user directory (`Server.users`, `add_user`), the `help`/`list`/`chat <k>` commands, the `FIN` control operation, and the `Server.chat` bookkeeping that takes a pair of users out of the waiting list.

Every handler is a pure function of the server state and one input. `handle_command` never changes the directory, so `Coordinator.HandleCommand` returns only the response text or the Python exception that replaces it (`Results.Result`). The other handlers also return the new server state alongside that result.

Modules, leaves first:

| file | module | models |
|---|---|---|
| results.dfy | `Results` | exceptions as values |
| bytes.dfy | `Bytes` | `bytes` slicing, `int.to_bytes` / `int.from_bytes` big-endian |
| flags.dfy | `Flags` | `Type`, `Operation`, `Sequence` |
| codec.dfy | `Codec` | `parse_into`, `Header`, `Message` |
| codec_lemmas.dfy | `CodecLemmas` | size and round-trip properties |
| text.dfy | `Text` | `str.strip`, `str.split(" ")`, `str.join`, `int()`, decimal rendering |
| users.dfy | `Users` | `User`, `add_user`, `list.remove` |
| coordinator.dfy | `Coordinator` | `Command.try_from`, `Server.usernames`, the handlers, `Server.chat` |
| coordinator_lemmas.dfy | `CoordinatorLemmas` | invariants and effects of the handlers |

The encoder pads and truncates nothing. A header is therefore 39 bytes, and decoding inverts encoding, exactly when the user name is 32 bytes long. `CodecLemmas.HeaderRoundTrip` and `CodecLemmas.MessageRoundTrip` prove both directions of that. For any other length, the decoder reads a different user name (`CodecLemmas.UserMisreadUnless32`).

`User.__eq__` is not part of this model. Every user operation takes the equality as a parameter `eq`. Every lemma assumes only what it needs of it: reflexive, symmetric, or a full equivalence. `Users.ByName` (same name, same user) is the intended equality and is an equivalence. `Command.try_from` is not part of this model either. It is modelled as the closed mapping of `help`, `list` and `chat` onto commands, with everything else unknown.

Facts about the code that the model keeps as they are:

- The encoder neither pads nor truncates the user name.
- `Message.from_bytes` never compares the header's length field with the payload (`CodecLemmas.PayloadLengthNotChecked`).
- `handle_control` raises `ValueError` for a `FIN` from a user who is not in the directory. `handle_message` never reaches that case, because it adds the sender first (`CoordinatorLemmas.ControlNeverRaises`).
- The `chat <k>` command only answers "Connecting with user …" and leaves the directory unchanged; creating the pairing is a TODO in the code. `Server.chat`, which takes the pair out of the waiting list, is modelled on its own as `Coordinator.StartChat`.
- A non-numeric `chat` argument raises `ValueError` and one past the end raises `IndexError`. `chat 0` reads index -1, which is the last user.
- `Operation.ERR` has the value `0x0`.
- `Coordinator.InitialServer` uses the `Server` dataclass defaults, `localhost` and port 5000.

Definitional helpers carry no row of their own; the rows of the members that use them state their meaning:
- `Users.Contains`: `any(user == u for u in users)`.
- `Users.NoDuplicates`: the directory invariant.
- `Flags.OpName`: `Operation.__str__`.
- `Flags.TypeValue`, `Flags.OpValue`, `Flags.SeqValue`: the declared flag values.
- `Text.Join`: `str.join`.
- `Text.IsSpace`, `Text.IsDigit`, `Text.AllDigits`, `Text.DigitsValue`, `Text.DigitChar`: character classes and digit values.
- `Coordinator.UserLine`: one listing line.
- `Bytes.Take`, `Bytes.Drop`, `Bytes.Slice`: Python's clipped slicing.

## Model

| member | source | states |
|---|---|---|
| Codec.ParseInto | simp.py:21-24 | The consumed prefix followed by the returned rest is the input. The parsed value is the parse of that prefix, and the rest is shorter by the prefix length. |
| Flags.TypeFromBytes | simp.py:34-36 | Decoding succeeds exactly when the big-endian value names a declared `Type`, and it returns the variant with that value. |
| Flags.TypeIntoBytes | simp.py:27-32 | A `Type` encodes to one byte holding its declared value (CONTROL=1, CHAT=2), and that byte decodes back to the same variant. |
| Flags.OpFromBytes | simp.py:51-53 | Decoding succeeds exactly when the value names a declared `Operation`, and it returns that variant. |
| Flags.OpIntoBytes | simp.py:39-49 | An `Operation` encodes to one byte holding its declared value (ERR=0, SYN=2, ACK=4, FIN=8), which decodes back to it. |
| Flags.SeqFromBytes | simp.py:63-65 | Decoding succeeds exactly when the value names a declared `Sequence`, and it returns that variant. |
| Flags.SeqIntoBytes | simp.py:56-61 | A `Sequence` encodes to one byte holding its declared value (RE=1, NORE=2), which decodes back to it. |
| Bytes.ToBigEndian | simp.py:82 | `to_bytes(k, "big")` raises `OverflowError` exactly outside `0 <= n < 256^k`. Otherwise it gives k bytes that `int.from_bytes` reads back as n. |
| Bytes.EncodeBigEndian | simp.py:82 | A value that fits is written as exactly k big-endian bytes that read back as the value. |
| Bytes.FromBigEndian | simp.py:91 | Reading k big-endian bytes yields a value below 256^k. |
| Codec.HeaderIntoBytes | simp.py:76-83 | Fails only with `OverflowError`, and exactly when the length does not fit in 32 bits. Otherwise the output is 7 + the user length bytes: the three flag bytes decoding to the header's flags, then the unpadded user bytes, then four bytes reading back as the length. |
| Codec.HeaderFromBytes | simp.py:86-92 | Reads at fixed offsets: type at byte 0, operation at 1, sequence at 2, user at 3..35, length at 35..39 (clipped on short input). It fails exactly when a flag byte names no declared variant. |
| Codec.MessageIntoBytes | simp.py:100-101 | Fails exactly when the header's length does not fit. Otherwise the output is the encoded header followed by the payload, unchanged. |
| Codec.MessageFromBytes | simp.py:103-107 | The header is decoded from the first 39 bytes and the payload is everything from byte 39 on. It fails exactly when that header fails. |
| CodecLemmas.HeaderSize39 | simp.py:76-83 | An encodable header is 39 bytes long exactly when its user name is 32 bytes. |
| CodecLemmas.HeaderRoundTrip | simp.py:76-92 | For a length that fits, decoding the encoded header gives back the header if and only if the user name is exactly 32 bytes. |
| CodecLemmas.MessageRoundTrip | simp.py:100-107 | For a length that fits, decoding the encoded message gives back the message if and only if the user name is exactly 32 bytes. |
| CodecLemmas.UserMisreadUnless32 | simp.py:90 | With a user name of any length other than 32, the decoded user name has a different length, whatever follows the header. |
| CodecLemmas.PayloadLengthNotChecked | simp.py:104-107 | After a well-formed 39-byte header, any payload is accepted unchanged, whatever length the header declares. |
| Text.BytesToText | simp.py:106 | The payload text has one character per byte, with the byte's code. |
| Text.LeadingSpaces | simp_server.py:62 | Counts exactly the whitespace prefix: everything before the count is whitespace, and the next character is not. |
| Text.TrailingSpaces | simp_server.py:62 | Counts exactly the whitespace suffix. |
| Text.StripBounds | simp_server.py:62 | Where `strip()` cuts: everything before the first bound and from the second on is whitespace, and the kept characters at both ends are not. |
| Text.Strip | simp_server.py:62 | `strip()` returns no more than its input, and neither end of the result is whitespace. Text.StripIsMiddle ties the result to the input. |
| Text.StripIsMiddle | simp_server.py:62 | The input is its whitespace prefix, then the stripped text, then its whitespace suffix. |
| Text.FirstIndex | simp_server.py:62 | Returns the first position of the separator: it is there, and not before. |
| Text.FirstIndexOf | simp_server.py:62 | A separator with no earlier occurrence is the first one. |
| Text.Split | simp_server.py:62 | `split(" ")` returns at least one piece, no piece contains the separator, and joining the pieces with it restores the input. |
| Text.SplitJoin | simp_server.py:62 | Splitting a join of pieces without the separator gives back the pieces. |
| Text.NatToString | simp_server.py:36 | An index is rendered as decimal digits with no leading zero. |
| Text.DigitsValueOfNatToString | simp_server.py:36 | The digits of a rendered number have the number's value. |
| Text.ParseSigned | simp_server.py:78 | After stripping, `int()` succeeds exactly on a non-empty run of digits, optionally after one `+` or `-`, and raises `ValueError` otherwise. The value is the digits' value, negated after `-`. |
| Text.StripDigit | simp_server.py:78 | A digit kept by `strip()` is a digit of the text before stripping. |
| Text.ParseInt | simp_server.py:78 | `int()` fails only with `ValueError`, and succeeds only on text with a digit. |
| Text.ParseIntDigits | simp_server.py:78 | `int()` of a non-empty string of decimal digits is the digits' value. |
| Text.ParseNatToString | simp_server.py:78 | `int()` of a rendered index gives the index, so the positions `list` prints are the ones `chat` reads. |
| Text.StripUnchanged | simp_server.py:62 | Text that neither starts nor ends with whitespace is unchanged by `strip()`. |
| Users.AddUser | simp_server.py:67-69 | The existing entries keep their places. The list grows by one exactly when no equal user was present, and the new entry is the user. With a reflexive equality, the user is present afterwards. |
| Users.AddUserIdempotent | simp_server.py:67-69 | Adding the same user twice is the same as adding it once. |
| Users.AddUserKeepsNoDuplicates | simp_server.py:67-69 | `add_user` keeps "no two entries are equal users". |
| Users.IndexOf | simp_server.py:92 | Finds the first entry equal to the user, or reports that there is none. |
| Users.Remove | simp_server.py:92 | `list.remove` succeeds exactly when an equal entry exists, and otherwise raises `ValueError`. On success it drops exactly the first equal entry and keeps the rest in order. |
| Users.Without | simp_server.py:92 | The entries kept are entries of the input, and none of them equals the user. |
| Users.WithoutAppend | simp_server.py:92 | Removing a user's entries from a concatenation removes them from each part. |
| Users.WithoutNone | simp_server.py:92 | A list with no entry equal to the user is unchanged by removing that user's entries. |
| Users.WithoutSingle | simp_server.py:92 | When one entry alone equals the user, removing the user's entries drops just that one. |
| Users.RemoveUnique | simp_server.py:91-93 | In a duplicate-free directory that holds the user, `list.remove` drops exactly the user's entry. The user is then absent. |
| Users.WithoutKeepsNoDuplicates | simp_server.py:92 | Removals keep the directory duplicate-free. |
| Coordinator.TryFrom | simp_server.py:72 | `help`, `list` and `chat` map to their commands, each exactly for that word. Everything else is unknown. |
| Coordinator.UsernameLines | simp_server.py:34-36 | One line per user, in directory order: the 1-based position, `) `, then the name. |
| Coordinator.UserLineHasNoNewline | simp_server.py:36 | A listing line has no newline when the name has none. |
| Coordinator.Usernames | simp_server.py:34-36 | `Server.usernames` is empty for an empty directory. Otherwise, when no name holds a newline, its lines are exactly the listing lines, one per user in order. |
| Coordinator.PyIndex | simp_server.py:78 | `users[i]` succeeds exactly for `-len <= i < len`, returning the entry at i or at i + len. Otherwise it raises `IndexError`. |
| Coordinator.HandleCommand | simp_server.py:71-87 | Only `chat` with exactly one argument can raise, and only `ValueError` or `IndexError`. Its answer is the self-chat refusal or a connection to a user in the directory. |
| Coordinator.HandleControl | simp_server.py:89-95 | `FIN` succeeds exactly when the user is present: the directory shrinks by one and the disconnect notice names the user. On failure it raises `ValueError` and changes nothing. Any other operation gets "Invalid command, NAME" and changes nothing. |
| Coordinator.Words | simp_server.py:62 | A payload yields at least one word, no word contains a space, and the words joined by single spaces give back the stripped payload. |
| Coordinator.HandleMessage | simp_server.py:58-65 | The corrected dispatch. A chat message leaves the directory as `add_user` left it. A non-`FIN` control message also does, and is answered "Invalid command, NAME". A successful `FIN` answers with the disconnect notice. A chat message is answered by `handle_command` on the updated server, with the first word of the stripped payload as the command and the rest as arguments. |
| Coordinator.HandleMessageAsWritten | simp_server.py:58-60 | As written, every message raises `AttributeError`, after `add_user` has kept the old entries and added the sender. |
| Coordinator.StartChat | simp_server.py:97-102 | Succeeds exactly when the first user is present and the second is present after the first's removal. The directory then shrinks by two and the chat holds the pair, the server's host and the given port. Otherwise it raises `ValueError`. The directory is unchanged if the first user was absent, and keeps the first user removed if only the second was. |
| CoordinatorLemmas.HandleMessageKeepsNoDuplicates | simp_server.py:58-69 | Every message keeps the directory duplicate-free. |
| CoordinatorLemmas.ControlNeverRaises | simp_server.py:58-65 | A control message never raises, because `add_user` has put the sender that `FIN` removes into the directory. |
| CoordinatorLemmas.SenderPresentUnlessFin | simp_server.py:58-65 | After a chat message, or a control message other than `FIN`, the sender is in the directory. |
| CoordinatorLemmas.FinDisconnects | simp_server.py:89-93 | `FIN` answers "User NAME has disconnected". The directory is left without the sender, and otherwise unchanged and in order. |
| CoordinatorLemmas.FinTwice | simp_server.py:89-93 | A repeated `FIN` gets the same answer and leaves the directory as the first left it. |
| CoordinatorLemmas.ChatSelects | simp_server.py:77-83 | `chat k` for 1 <= k <= the number of users selects the k-th user. It refuses if that user is the sender, and connects otherwise. |
| CoordinatorLemmas.ChatZeroSelectsLast | simp_server.py:78 | `chat 0` selects the last user (Python index -1). |
| CoordinatorLemmas.ChatPastEnd | simp_server.py:78 | `chat k` past the end raises `IndexError`. |
| CoordinatorLemmas.ChatNotANumber | simp_server.py:78 | `chat` with a non-numeric argument raises `ValueError`. |
| CoordinatorLemmas.UnknownAndHelp | simp_server.py:71-87 | `help` gets the usage line. An unknown word, or `chat` without exactly one argument, gets the "Unknown command" reply. |
| CoordinatorLemmas.ListingLines | simp_server.py:75-76 | The `list` reply, split at newlines, is `Users:` followed by one "POSITION) NAME" line per user, in directory order. |
| CoordinatorLemmas.ChatPayloadWords | simp_server.py:62 | The payload `chat K` yields the command word `chat` and the single argument K. |
| CoordinatorLemmas.ChatMessageSelects | simp_server.py:58-83 | A chat message `chat K` for a position of the directory is answered with the K-th user (or the self-chat refusal), and the directory is what `add_user` left. |
| CoordinatorLemmas.StartChatRemovesPair | simp_server.py:97-102 | For two distinct waiting users in a duplicate-free directory, `Server.chat` removes exactly those two, keeps everyone else in order, and keeps the directory duplicate-free. |
| CoordinatorLemmas.SecondStillWaiting | simp_server.py:99-100 | After the first of a pair is removed, the second is still waiting and the directory is still duplicate-free. |
| CoordinatorLemmas.ContainsAfterWithout | simp_server.py:92 | A user who is not the one removed stays in the directory. |
| CoordinatorLemmas.HelpWords | simp_server.py:62 | The payload `help` yields the single word `help`. |
| CoordinatorLemmas.HelpRequestAsWritten | simp_server.py:60 | On a `help` request from `alice`, the as-written handler raises `AttributeError`, while the corrected one answers with the usage line and lists `alice`. |

## Left out

- `Server.run` (the UDP receive/reply loop) and `Chat.__enter__`/`__exit__` (socket bind and close): network I/O. `run` is where a `User` is built from the header's user name and the sender address, so the handlers here take the `User` as an argument.
- `main`, argument parsing, `KeyboardInterrupt` handling and `time.sleep` in the server script: command-line glue.
- `simp_client.py`: it only builds a `User` and calls `User.connect`, which is not part of this model.
- The chat relay and the SYN/ACK handshake: the code has only a TODO for them.
- Python `IntFlag` behaviour for undeclared values and bitwise combinations: a flag byte that names no declared variant decodes to `UndeclaredFlag` here, where Python would build a pseudo-member. As a result, a message type that is neither CHAT nor CONTROL, which falls through `handle_message` with no reply, cannot arise in this model.
- UTF-8: user names and payloads are the bytes their text encodes to. `Header.from_bytes` keeps the 32 user bytes rather than decoding them, so a `UnicodeDecodeError` is not modelled.
- Text.BytesToText: reads one character per byte, which agrees with UTF-8 decoding only on ASCII.
- Text.Strip: treats only ASCII whitespace as whitespace; `str.isspace` also accepts non-ASCII spaces.
- Text.ParseInt: accepts ASCII digits with an optional sign and surrounding ASCII whitespace. The digit-group underscores and non-ASCII digits that `int()` also accepts are not modelled. Its own contract states only the error kind and that a digit is present. The texts it accepts and their values, signed ones included, are stated by Text.ParseSigned for the text after stripping. Text.ParseIntDigits and Text.ParseNatToString state the value for plain digit strings and for the numerals the listing prints.
- Coordinator.HandleControl: renders the operation in "Invalid command, …" by its member name, as `Operation.__str__` does; Python versions that format an `IntFlag` as its integer would print the number instead.
- Coordinator.Usernames: the text is stated only for directories whose names hold no newline, because only then does splitting it at newlines give back the listing lines. A user name is any 32 header bytes, so such names can occur; the code still joins the lines then, and the model computes the same join, but no contract describes the result. CoordinatorLemmas.ListingLines has the same limit in its requires.
- `User.__eq__` and `Command.try_from`: not part of this model; the equality is a parameter and the command mapping is the closed one described above.

## Findings

| source | as written | input that shows it | evidently intended | confidence | as-written member | corrected member |
|---|---|---|---|---|---|---|
| simp_server.py:60 | `handle_message` matches on `message.type` and passes `message.operation`. `Message` as defined at simp.py:95-98 has only `header` and `data`, so every call raises `AttributeError` after adding the sender. The claim rests on that `Message` definition: `simp_server.py` also imports `User` and `Command` from `simp`, and the `simp.py` here defines neither | a CHAT message with payload `help` from user `alice` | dispatch on `message.header.type` and `message.header.operation` | high; not executed | Coordinator.HandleMessageAsWritten | Coordinator.HandleMessage |

=== FILE: bytes.dfy ===
/** Byte strings as Python's `bytes`: slicing, and big-endian integers. */
module Bytes {
  import opened Results

  newtype byte = x: int | 0 <= x < 256

  /** `s[:n]` for a non-negative `n`: Python clips the bound to the length. */
  function Take<T>(s: seq<T>, n: nat): (r: seq<T>)
  {
    if n <= |s| then s[..n] else s
  }

  /** `s[n:]` for a non-negative `n`, clipped like `Take`. */
  function Drop<T>(s: seq<T>, n: nat): (r: seq<T>)
  {
    if n <= |s| then s[n..] else []
  }

  /** `s[i:j]` for non-negative bounds, both clipped to the length. */
  function Slice<T>(s: seq<T>, i: nat, j: nat): (r: seq<T>)
  {
    var hi := if j <= |s| then j else |s|;
    var lo := if i <= hi then i else hi;
    s[lo..hi]
  }

  lemma TakeDrop<T>(s: seq<T>, n: nat)
    ensures Take(s, n) + Drop(s, n) == s
    ensures |Take(s, n)| == if n <= |s| then n else |s|
  {
  }

  /** Two successive `Drop`s and a final `Take` read one clipped slice. */
  lemma DropDropTake<T>(s: seq<T>, i: nat, j: nat, n: nat)
    ensures Take(Drop(Drop(s, i), j), n) == Slice(s, i + j, i + j + n)
    ensures Drop(Drop(s, i), j) == Drop(s, i + j)
  {
  }

  /** 256 to the power `k`: the number of values `k` bytes can hold. */
  function Pow256(k: nat): (p: nat)
    ensures p >= 1
  {
    if k == 0 then 1 else 256 * Pow256(k - 1)
  }

  /** `int.from_bytes(s, "big")`: the most significant byte comes first. */
  function FromBigEndian(s: seq<byte>): (n: nat)
    ensures n < Pow256(|s|)
  {
    if |s| == 0 then 0
    else
      var high := FromBigEndian(s[..|s| - 1]);
      assert high + 1 <= Pow256(|s| - 1);
      assert (high + 1) * 256 <= Pow256(|s| - 1) * 256;
      high * 256 + s[|s| - 1] as int
  }

  /** The `k` big-endian bytes of a value known to fit in them. */
  function EncodeBigEndian(n: nat, k: nat): (r: seq<byte>)
    requires n < Pow256(k)
    ensures |r| == k
    ensures FromBigEndian(r) == n
  {
    if k == 0 then []
    else
      var high := EncodeBigEndian(n / 256, k - 1);
      assert (high + [(n % 256) as byte])[..k - 1] == high;
      high + [(n % 256) as byte]
  }

  /** `n.to_bytes(k, "big")`: the unsigned form raises `OverflowError` for a
      negative value and for one that needs more than `k` bytes. */
  function ToBigEndian(n: int, k: nat): (r: Result<seq<byte>>)
    ensures r.Ok? <==> 0 <= n < Pow256(k)
    ensures r.Ok? ==> |r.value| == k && FromBigEndian(r.value) == n
    ensures r.Err? ==> r.error == OverflowError
  {
    if n < 0 || n >= Pow256(k) then Err(OverflowError)
    else Ok(EncodeBigEndian(n, k))
  }
}

=== FILE: codec.dfy ===
/** The SIMP wire format: a header of three flag bytes, the sender's user
    name and a four-byte big-endian payload length, followed by the payload.
    The user name and the payload are kept as the bytes their text encodes to. */
module Codec {
  import opened Results
  import opened Bytes
  import opened Flags

  /** Bytes the decoder reads as a header. */
  const HeaderSize: nat := 39
  /** Bytes the decoder reads as the user name. */
  const UserSize: nat := 32
  /** Bytes of the payload length field. */
  const LengthSize: nat := 4

  datatype Header = Header(
    msgType: MsgType,
    operation: Operation,
    sequence: SeqFlag,
    user: seq<byte>,
    length: int)

  datatype Message = Message(header: Header, data: seq<byte>)

  /** `parse_into(data, n, cls)`: parse the first `n` bytes, return the rest. */
  function ParseInto<T>(data: seq<byte>, n: nat, parse: seq<byte> -> T): (r: (seq<byte>, T))
    ensures Take(data, n) + r.0 == data
    ensures |r.0| == if n <= |data| then |data| - n else 0
    ensures r.1 == parse(Take(data, n))
  {
    TakeDrop(data, n);
    (Drop(data, n), parse(Take(data, n)))
  }

  /** `Header.into_bytes`: the three flag bytes, the user bytes as they are
      (no padding, no truncation) and the length in four big-endian bytes,
      which raises `OverflowError` unless the length fits in 32 bits. */
  function HeaderIntoBytes(h: Header): (r: Result<seq<byte>>)
    ensures r.Ok? <==> 0 <= h.length < Pow256(LengthSize)
    ensures r.Err? ==> r.error == OverflowError
    ensures r.Ok? ==> |r.value| == 3 + |h.user| + LengthSize
    ensures r.Ok? ==>
      && TypeFromBytes(r.value[0..1]) == Ok(h.msgType)
      && OpFromBytes(r.value[1..2]) == Ok(h.operation)
      && SeqFromBytes(r.value[2..3]) == Ok(h.sequence)
      && r.value[3..3 + |h.user|] == h.user
      && FromBigEndian(r.value[3 + |h.user|..]) == h.length
  {
    var length :- ToBigEndian(h.length, LengthSize);
    var flags := TypeIntoBytes(h.msgType) + OpIntoBytes(h.operation) + SeqIntoBytes(h.sequence);
    var out := flags + h.user + length;
    assert out[0..1] == TypeIntoBytes(h.msgType);
    assert out[1..2] == OpIntoBytes(h.operation);
    assert out[2..3] == SeqIntoBytes(h.sequence);
    assert out[3..3 + |h.user|] == h.user;
    assert out[3 + |h.user|..] == length;
    Ok(out)
  }

  /** `Header.from_bytes`: the type, operation and sequence flags each come
      from one byte, the user from the next 32 and the length from the next
      4, all by slicing, so a short input yields short or empty fields. */
  function HeaderFromBytes(data: seq<byte>): (r: Result<Header>)
    ensures r.Ok? <==>
      && TypeFromBytes(Slice(data, 0, 1)).Ok?
      && OpFromBytes(Slice(data, 1, 2)).Ok?
      && SeqFromBytes(Slice(data, 2, 3)).Ok?
    ensures r.Ok? ==>
      && Ok(r.value.msgType) == TypeFromBytes(Slice(data, 0, 1))
      && Ok(r.value.operation) == OpFromBytes(Slice(data, 1, 2))
      && Ok(r.value.sequence) == SeqFromBytes(Slice(data, 2, 3))
      && r.value.user == Slice(data, 3, 3 + UserSize)
      && r.value.length == FromBigEndian(Slice(data, 3 + UserSize, HeaderSize))
  {
    var (afterType, msgType) := ParseInto(data, 1, TypeFromBytes);
    var (afterOp, operation) := ParseInto(afterType, 1, OpFromBytes);
    var (afterSeq, sequence) := ParseInto(afterOp, 1, SeqFromBytes);
    var user, afterUser := Take(afterSeq, UserSize), Drop(afterSeq, UserSize);
    var length := FromBigEndian(Take(afterUser, LengthSize));
    DropDropTake(data, 1, 0, 1);
    DropDropTake(data, 1, 1, 1);
    DropDropTake(data, 2, 1, 1);
    DropDropTake(data, 3, 0, UserSize);
    DropDropTake(data, 3, UserSize, LengthSize);
    assert afterType == Drop(data, 1) && afterOp == Drop(data, 2) && afterSeq == Drop(data, 3);
    var msgType :- msgType;
    var operation :- operation;
    var sequence :- sequence;
    Ok(Header(msgType, operation, sequence, user, length))
  }

  /** `Message.into_bytes`: the encoded header followed by the payload. */
  function MessageIntoBytes(m: Message): (r: Result<seq<byte>>)
    ensures r.Ok? <==> 0 <= m.header.length < Pow256(LengthSize)
    ensures r.Ok? ==> |r.value| == 3 + |m.header.user| + LengthSize + |m.data|
    ensures r.Ok? ==> r.value[3 + |m.header.user| + LengthSize..] == m.data
    ensures r.Ok? ==>
      && HeaderIntoBytes(m.header).Ok?
      && r.value[..3 + |m.header.user| + LengthSize] == HeaderIntoBytes(m.header).value
  {
    var header :- HeaderIntoBytes(m.header);
    Ok(header + m.data)
  }

  /** `Message.from_bytes`: the first 39 bytes are the header and all the
      rest is the payload; the header's length field is not consulted. */
  function MessageFromBytes(data: seq<byte>): (r: Result<Message>)
    ensures r.Ok? <==> HeaderFromBytes(Take(data, HeaderSize)).Ok?
    ensures r.Ok? ==> r.value.data == Slice(data, HeaderSize, |data|)
    ensures r.Ok? ==> Ok(r.value.header) == HeaderFromBytes(Take(data, HeaderSize))
  {
    var header :- HeaderFromBytes(Take(data, HeaderSize));
    Ok(Message(header, Drop(data, HeaderSize)))
  }
}

=== FILE: codec_lemmas.dfy ===
/** What the SIMP codec promises across encode and decode. */
module CodecLemmas {
  import opened Results
  import opened Bytes
  import opened Codec

  /** A header encodes to exactly the 39 bytes the decoder reads precisely
      when its user name is 32 bytes long. */
  lemma HeaderSize39(h: Header)
    requires 0 <= h.length < Pow256(LengthSize)
    ensures HeaderIntoBytes(h).Ok?
    ensures |HeaderIntoBytes(h).value| == HeaderSize <==> |h.user| == UserSize
  {
  }

  /** Decoding inverts encoding, and only for a 32-byte user name: a shorter
      name is read back with the length bytes appended to it, a longer one
      is cut at 32 bytes. */
  lemma HeaderRoundTrip(h: Header)
    requires 0 <= h.length < Pow256(LengthSize)
    ensures HeaderIntoBytes(h).Ok?
    ensures HeaderFromBytes(HeaderIntoBytes(h).value) == Ok(h) <==> |h.user| == UserSize
  {
    var e := HeaderIntoBytes(h).value;
    assert Slice(e, 0, 1) == e[0..1];
    assert Slice(e, 1, 2) == e[1..2];
    assert Slice(e, 2, 3) == e[2..3];
    var decoded := HeaderFromBytes(e).value;
    if |h.user| == UserSize {
      assert Slice(e, 3, 3 + UserSize) == e[3..3 + |h.user|];
      assert Slice(e, 3 + UserSize, HeaderSize) == e[3 + |h.user|..];
      assert decoded == h;
    } else {
      assert |decoded.user| != |h.user|;
    }
  }

  /** The message round trip holds exactly when the header's does: the
      payload is whatever follows byte 39. */
  lemma MessageRoundTrip(m: Message)
    requires 0 <= m.header.length < Pow256(LengthSize)
    ensures MessageIntoBytes(m).Ok?
    ensures MessageFromBytes(MessageIntoBytes(m).value) == Ok(m) <==> |m.header.user| == UserSize
  {
    var e := MessageIntoBytes(m).value;
    var hb := HeaderIntoBytes(m.header).value;
    assert e == hb + m.data;
    if |m.header.user| == UserSize {
      HeaderRoundTrip(m.header);
      PayloadLengthNotChecked(hb, m.data);
    } else {
      UserMisreadUnless32(m.header, hb, m.data);
    }
  }

  /** With a user name of any other length than 32, whatever follows the
      encoded header, the decoded user name has a different length. */
  lemma UserMisreadUnless32(h: Header, hb: seq<byte>, rest: seq<byte>)
    requires HeaderIntoBytes(h) == Ok(hb)
    requires |h.user| != UserSize
    ensures MessageFromBytes(hb + rest).Ok? ==>
      |MessageFromBytes(hb + rest).value.header.user| != |h.user|
  {
    var e := hb + rest;
    var front := Take(e, HeaderSize);
    var misread := Slice(front, 3, 3 + UserSize);
    assert |hb| == 7 + |h.user|;
    if |h.user| > UserSize {
      assert |front| == HeaderSize;
      assert |misread| == UserSize;
    } else {
      assert |front| >= 7 + |h.user|;
      assert |misread| > |h.user|;
    }
    if MessageFromBytes(e).Ok? {
      assert MessageFromBytes(e).value.header.user == misread;
    }
  }

  /** The decoder accepts any payload after a well-formed header, whatever
      length the header declares. */
  lemma PayloadLengthNotChecked(headerBytes: seq<byte>, payload: seq<byte>)
    requires |headerBytes| == HeaderSize
    requires HeaderFromBytes(headerBytes).Ok?
    ensures MessageFromBytes(headerBytes + payload)
         == Ok(Message(HeaderFromBytes(headerBytes).value, payload))
  {
    assert Take(headerBytes + payload, HeaderSize) == headerBytes;
    assert Slice(headerBytes + payload, HeaderSize, |headerBytes + payload|) == payload;
  }
}

=== FILE: coordinator.dfy ===
/** The SIMP server's session coordinator: a directory of users and a pure
    step function per handler, from the server state and an input to the new
    state and the response text (or the exception that replaces it). */
module Coordinator {
  import opened Results
  import opened Text
  import opened Users
  import Flags
  import Codec

  /** The server state the handlers read and change. */
  datatype Server = Server(users: seq<User>, host: string, port: int)

  /** A pairing of two users on its own port. */
  datatype Chat = Chat(users: (User, User), host: string, port: int)

  /** The commands a chat payload can start with. */
  datatype Command = Help | List | ChatWith | Unknown

  /** A server with the default address and no users. */
  const InitialServer := Server([], "localhost", 5000)

  const Usage := "Commands: help, list, chat <user>"
  const UnknownCommand := "Unknown command, try running `help` for more information"
  const SelfChat := "You cannot chat with yourself"

  function ConnectingWith(name: string): string
  {
    "Connecting with user " + name
  }

  function Disconnected(name: string): string
  {
    "User " + name + " has disconnected"
  }

  function InvalidControl(op: Flags.Operation): string
  {
    "Invalid command, " + Flags.OpName(op)
  }

  /** `Command.try_from`: exactly the three command words are recognised. */
  function TryFrom(word: string): (c: Command)
    ensures c == Help <==> word == "help"
    ensures c == List <==> word == "list"
    ensures c == ChatWith <==> word == "chat"
  {
    if word == "help" then Help
    else if word == "list" then List
    else if word == "chat" then ChatWith
    else Unknown
  }

  /** One line of the user listing: the 1-based position and the name. */
  function UserLine(i: nat, user: User): string
  {
    NatToString(i + 1) + ") " + user.name
  }

  /** The lines of `Server.usernames`, one per user in directory order. */
  function UsernameLines(users: seq<User>): (lines: seq<string>)
    ensures |lines| == |users|
    ensures forall i | 0 <= i < |users| :: lines[i] == UserLine(i, users[i])
  {
    seq(|users|, i requires 0 <= i < |users| => UserLine(i, users[i]))
  }

  /** A listing line has no newline when the user's name has none. */
  lemma UserLineHasNoNewline(i: nat, user: User)
    requires '\n' !in user.name
    ensures '\n' !in UserLine(i, user)
  {
    var digits := NatToString(i + 1);
    assert UserLine(i, user) == digits + ") " + user.name;
    assert forall k | 0 <= k < |digits| :: IsDigit(digits[k]);
  }

  /** `Server.usernames`: the listing lines joined by newlines. It is empty
      for an empty directory; otherwise, when no name holds a newline, its
      lines are exactly the listing lines, one per user in order. */
  function Usernames(s: Server): (r: string)
    ensures |s.users| == 0 ==> r == ""
    ensures |s.users| >= 1 && (forall k | 0 <= k < |s.users| :: '\n' !in s.users[k].name) ==>
      Split(r, '\n') == UsernameLines(s.users)
  {
    var lines := UsernameLines(s.users);
    if |s.users| >= 1 && (forall k | 0 <= k < |s.users| :: '\n' !in s.users[k].name) then
      forall k | 0 <= k < |lines|
        ensures '\n' !in lines[k]
      {
        UserLineHasNoNewline(k, s.users[k]);
      }
      SplitJoin(lines, '\n');
      Join(lines, '\n')
    else
      Join(lines, '\n')
  }

  /** `users[i]` with Python's reading of a negative index as counting from
      the end, and `IndexError` outside `-|users| <= i < |users|`. */
  function PyIndex(users: seq<User>, i: int): (r: Result<User>)
    ensures r.Ok? <==> -|users| <= i < |users|
    ensures r.Err? ==> r.error == IndexError
    ensures r.Ok? ==> exists k | 0 <= k < |users| :: r.value == users[k] && (k == i || k == i + |users|)
  {
    if 0 <= i < |users| then Ok(users[i])
    else if -|users| <= i < 0 then Ok(users[i + |users|])
    else Err(IndexError)
  }

  /** `Server.handle_command`. It never changes the directory, and only a
      `chat` with one argument can raise: `ValueError` for an argument that
      is not a number, `IndexError` for one past the list. */
  function HandleCommand(eq: UserEq, s: Server, user: User, command: string, args: seq<string>)
    : (r: Result<string>)
    ensures r.Err? ==> command == "chat" && |args| == 1
    ensures r.Err? ==> r.error == ValueError || r.error == IndexError
    ensures r.Ok? && command == "chat" && |args| == 1 ==>
      r.value == SelfChat || exists k | 0 <= k < |s.users| :: r.value == ConnectingWith(s.users[k].name)
  {
    match TryFrom(command)
    case Help => Ok(Usage)
    case List => Ok("Users:\n" + Usernames(s))
    case ChatWith =>
      if |args| != 1 then Ok(UnknownCommand)
      else
        var k :- ParseInt(args[0]);
        var selected :- PyIndex(s.users, k - 1);
        if eq(user, selected) then Ok(SelfChat) else Ok(ConnectingWith(selected.name))
    case Unknown => Ok(UnknownCommand)
  }

  /** `Server.handle_control`: `FIN` removes the user, raising `ValueError`
      when the user is not in the directory; every other operation is
      answered as invalid and changes nothing. */
  function HandleControl(eq: UserEq, s: Server, user: User, op: Flags.Operation)
    : (r: (Server, Result<string>))
    ensures r.0.host == s.host && r.0.port == s.port
    ensures op != Flags.FIN ==> r.0 == s && r.1 == Ok(InvalidControl(op))
    ensures op == Flags.FIN ==> (r.1.Ok? <==> exists k | 0 <= k < |s.users| :: eq(s.users[k], user))
    ensures op == Flags.FIN && r.1.Ok? ==>
      |r.0.users| == |s.users| - 1 && r.1.value == Disconnected(user.name)
    ensures r.1.Err? ==> r.0 == s && r.1.error == ValueError
  {
    if op == Flags.FIN then
      match Remove(eq, s.users, user)
      case Err(e) => (s, Err(e))
      case Ok(rest) => (s.(users := rest), Ok(Disconnected(user.name)))
    else
      (s, Ok(InvalidControl(op)))
  }

  /** The command word and arguments of a chat payload:
      `message.data.strip().split(" ")`. */
  function Words(data: seq<Bytes.byte>): (words: seq<string>)
    ensures |words| >= 1
    ensures forall k | 0 <= k < |words| :: ' ' !in words[k]
    ensures Join(words, ' ') == Strip(BytesToText(data))
  {
    Split(Strip(BytesToText(data)), ' ')
  }

  /** `Server.handle_message`, dispatching on the header's type and
      operation: the sender is added first, then a chat payload is run as a
      command and a control message is handed to `HandleControl`. */
  function HandleMessage(eq: UserEq, s: Server, user: User, m: Codec.Message)
    : (r: (Server, Result<string>))
    ensures r.0.host == s.host && r.0.port == s.port
    ensures m.header.msgType == Flags.CHAT ==> r.0.users == AddUser(eq, s.users, user)
    ensures m.header.msgType == Flags.CONTROL && m.header.operation != Flags.FIN ==>
      r.0.users == AddUser(eq, s.users, user) && r.1 == Ok(InvalidControl(m.header.operation))
    ensures m.header.msgType == Flags.CONTROL && m.header.operation == Flags.FIN && r.1.Ok? ==>
      r.1.value == Disconnected(user.name)
    ensures m.header.msgType == Flags.CHAT ==>
      var w := Words(m.data); r.1 == HandleCommand(eq, r.0, user, w[0], w[1..])
  {
    var joined := s.(users := AddUser(eq, s.users, user));
    if m.header.msgType == Flags.CHAT then
      var words := Words(m.data);
      (joined, HandleCommand(eq, joined, user, words[0], words[1..]))
    else
      HandleControl(eq, joined, user, m.header.operation)
  }

  /** `Server.handle_message` as written: after adding the sender it reads
      `message.type`, an attribute `Message` does not have, so every call
      raises `AttributeError` with the sender already in the directory. */
  function HandleMessageAsWritten(eq: UserEq, s: Server, user: User, m: Codec.Message)
    : (r: (Server, Result<string>))
    ensures r.1.Err? && r.1.error == AttributeError
    ensures |r.0.users| >= |s.users| && r.0.users[..|s.users|] == s.users
    ensures Reflexive(eq) ==> Contains(eq, r.0.users, user)
  {
    (s.(users := AddUser(eq, s.users, user)), Err(AttributeError))
  }

  /** `Server.chat`: take both users out of the waiting list, first one then
      the other, and open a pairing on the given port; a user that is not
      there raises `ValueError`, after any removal already made. */
  function StartChat(eq: UserEq, s: Server, pair: (User, User), port: int)
    : (r: (Server, Result<Chat>))
    ensures r.0.host == s.host && r.0.port == s.port
    ensures r.1.Ok? <==>
      (exists k | 0 <= k < |s.users| :: eq(s.users[k], pair.0))
      && Remove(eq, Remove(eq, s.users, pair.0).value, pair.1).Ok?
    ensures r.1.Ok? ==>
      |r.0.users| == |s.users| - 2 && r.1.value == Chat(pair, s.host, port)
    ensures r.1.Err? ==> r.1.error == ValueError
    ensures r.1.Err? && !(exists k | 0 <= k < |s.users| :: eq(s.users[k], pair.0)) ==> r.0 == s
    ensures r.1.Err? && (exists k | 0 <= k < |s.users| :: eq(s.users[k], pair.0)) ==>
      r.0.users == Remove(eq, s.users, pair.0).value
  {
    match Remove(eq, s.users, pair.0)
    case Err(e) => (s, Err(e))
    case Ok(afterFirst) =>
      match Remove(eq, afterFirst, pair.1)
      case Err(e) => (s.(users := afterFirst), Err(e))
      case Ok(afterBoth) => (s.(users := afterBoth), Ok(Chat(pair, s.host, port)))
  }
}

=== FILE: coordinator_lemmas.dfy ===
/** What the session coordinator promises across its handlers. */
module CoordinatorLemmas {
  import opened Results
  import opened Bytes
  import opened Text
  import opened Users
  import opened Coordinator
  import Flags
  import Codec

  /** The directory after `add_user`, before dispatch. */
  function Joined(eq: UserEq, s: Server, user: User): seq<User>
  {
    AddUser(eq, s.users, user)
  }

  /** `handle_message` keeps the directory free of duplicates. */
  lemma HandleMessageKeepsNoDuplicates(eq: UserEq, s: Server, user: User, m: Codec.Message)
    requires IsEquivalence(eq)
    requires NoDuplicates(eq, s.users)
    ensures NoDuplicates(eq, HandleMessage(eq, s, user, m).0.users)
  {
    var joined := Joined(eq, s, user);
    AddUserKeepsNoDuplicates(eq, s.users, user);
    if m.header.msgType == Flags.CONTROL && m.header.operation == Flags.FIN {
      RemoveUnique(eq, joined, user);
      WithoutKeepsNoDuplicates(eq, joined, user);
    }
  }

  /** A control message never raises: the user `FIN` removes is the one
      `add_user` has just made sure of. */
  lemma ControlNeverRaises(eq: UserEq, s: Server, user: User, m: Codec.Message)
    requires Reflexive(eq) && Symmetric(eq)
    requires m.header.msgType == Flags.CONTROL
    ensures HandleMessage(eq, s, user, m).1.Ok?
  {
    var joined := Joined(eq, s, user);
    var k :| 0 <= k < |joined| && eq(user, joined[k]);
    assert eq(joined[k], user);
  }

  /** After a chat message, and after a control message other than `FIN`,
      the sender is in the directory. */
  lemma SenderPresentUnlessFin(eq: UserEq, s: Server, user: User, m: Codec.Message)
    requires Reflexive(eq)
    requires m.header.msgType == Flags.CHAT || m.header.operation != Flags.FIN
    ensures Contains(eq, HandleMessage(eq, s, user, m).0.users, user)
  {
  }

  /** `FIN` answers with the disconnect notice and leaves the directory
      without the sender and otherwise as it was, in order. */
  lemma FinDisconnects(eq: UserEq, s: Server, user: User, m: Codec.Message)
    requires IsEquivalence(eq)
    requires NoDuplicates(eq, s.users)
    requires m.header.msgType == Flags.CONTROL && m.header.operation == Flags.FIN
    ensures HandleMessage(eq, s, user, m).1 == Ok(Disconnected(user.name))
    ensures HandleMessage(eq, s, user, m).0.users == Without(eq, s.users, user)
    ensures !Contains(eq, HandleMessage(eq, s, user, m).0.users, user)
  {
    var joined := Joined(eq, s, user);
    AddUserKeepsNoDuplicates(eq, s.users, user);
    RemoveUnique(eq, joined, user);
    if Contains(eq, s.users, user) {
      assert joined == s.users;
    } else {
      assert joined == s.users + [user];
      WithoutAppend(eq, s.users, [user], user);
      forall k | 0 <= k < |s.users|
        ensures !eq(s.users[k], user)
      {
        assert !eq(user, s.users[k]);
      }
      WithoutNone(eq, s.users, user);
    }
  }

  /** A second `FIN` from the same user is answered the same way and leaves
      the directory as the first one left it. */
  lemma FinTwice(eq: UserEq, s: Server, user: User, m: Codec.Message)
    requires IsEquivalence(eq)
    requires NoDuplicates(eq, s.users)
    requires m.header.msgType == Flags.CONTROL && m.header.operation == Flags.FIN
    ensures var once := HandleMessage(eq, s, user, m).0;
      HandleMessage(eq, once, user, m) == (once, Ok(Disconnected(user.name)))
  {
    var once := HandleMessage(eq, s, user, m).0;
    FinDisconnects(eq, s, user, m);
    WithoutKeepsNoDuplicates(eq, s.users, user);
    FinDisconnects(eq, once, user, m);
    forall k | 0 <= k < |once.users|
      ensures !eq(once.users[k], user)
    {
      assert !eq(user, once.users[k]);
    }
    WithoutNone(eq, once.users, user);
  }

  /** `chat k` for a position the listing shows selects the `k`-th user. */
  lemma ChatSelects(eq: UserEq, s: Server, user: User, k: nat)
    requires 1 <= k <= |s.users|
    ensures HandleCommand(eq, s, user, "chat", [NatToString(k)])
         == Ok(if eq(user, s.users[k - 1]) then SelfChat else ConnectingWith(s.users[k - 1].name))
  {
    ParseNatToString(k);
  }

  /** `chat 0` reads index -1 and so selects the last user. */
  lemma ChatZeroSelectsLast(eq: UserEq, s: Server, user: User)
    requires |s.users| >= 1
    ensures var last := s.users[|s.users| - 1];
      HandleCommand(eq, s, user, "chat", ["0"])
      == Ok(if eq(user, last) then SelfChat else ConnectingWith(last.name))
  {
    ParseNatToString(0);
    assert NatToString(0) == "0";
    assert ParseInt("0") == Ok(0);
    assert PyIndex(s.users, 0 - 1) == Ok(s.users[|s.users| - 1]);
  }

  /** `chat k` past the end of the list raises `IndexError`. */
  lemma ChatPastEnd(eq: UserEq, s: Server, user: User, k: nat)
    requires k > |s.users|
    ensures HandleCommand(eq, s, user, "chat", [NatToString(k)]) == Err(IndexError)
  {
    ParseNatToString(k);
  }

  /** `chat` with an argument `int()` rejects raises `ValueError`. */
  lemma ChatNotANumber(eq: UserEq, s: Server, user: User, arg: string)
    requires ParseInt(arg).Err?
    ensures HandleCommand(eq, s, user, "chat", [arg]) == Err(ValueError)
  {
  }

  /** An unknown command word, and `chat` without exactly one argument, get
      the reply that points to `help`; `help` gets the usage line. */
  lemma UnknownAndHelp(eq: UserEq, s: Server, user: User, command: string, args: seq<string>)
    ensures command == "help" ==> HandleCommand(eq, s, user, command, args) == Ok(Usage)
    ensures command !in {"help", "list", "chat"} || (command == "chat" && |args| != 1) ==>
      HandleCommand(eq, s, user, command, args) == Ok(UnknownCommand)
  {
  }

  /** The `list` reply read line by line: `Users:` and then one
      `"{position}) {name}"` line per user, in directory order. */
  lemma ListingLines(eq: UserEq, s: Server, user: User, args: seq<string>)
    requires |s.users| >= 1
    requires forall k | 0 <= k < |s.users| :: '\n' !in s.users[k].name
    ensures HandleCommand(eq, s, user, "list", args).Ok?
    ensures Split(HandleCommand(eq, s, user, "list", args).value, '\n')
         == ["Users:"] + UsernameLines(s.users)
  {
    var lines := UsernameLines(s.users);
    var parts := ["Users:"] + lines;
    assert parts[1..] == lines;
    assert Join(parts, '\n') == "Users:\n" + Usernames(s);
    forall k | 0 <= k < |parts|
      ensures '\n' !in parts[k]
    {
      if k > 0 {
        UserLineHasNoNewline(k - 1, s.users[k - 1]);
      }
    }
    SplitJoin(parts, '\n');
  }

  /** The payload `chat k` splits into the command word and one argument. */
  lemma ChatPayloadWords(data: seq<byte>, k: nat)
    requires BytesToText(data) == "chat " + NatToString(k)
    ensures Coordinator.Words(data) == ["chat", NatToString(k)]
  {
    var digits := NatToString(k);
    var text := "chat " + digits;
    assert IsDigit(digits[|digits| - 1]);
    assert text[|text| - 1] == digits[|digits| - 1];
    StripUnchanged(text);
    assert forall j | 0 <= j < |digits| :: IsDigit(digits[j]);
    assert ' ' !in digits;
    assert Join(["chat", digits], ' ') == text;
    SplitJoin(["chat", digits], ' ');
  }

  /** A user who sends `chat k` for a position of the directory (after the
      user's own join) is connected with that user, or told off for picking
      themself; the directory is what `add_user` left. */
  lemma ChatMessageSelects(eq: UserEq, s: Server, user: User, m: Codec.Message, k: nat)
    requires m.header.msgType == Flags.CHAT
    requires BytesToText(m.data) == "chat " + NatToString(k)
    requires 1 <= k <= |Joined(eq, s, user)|
    ensures var joined := Joined(eq, s, user);
      HandleMessage(eq, s, user, m)
      == (s.(users := joined),
          Ok(if eq(user, joined[k - 1]) then SelfChat else ConnectingWith(joined[k - 1].name)))
  {
    ChatPayloadWords(m.data, k);
    ChatSelects(eq, s.(users := Joined(eq, s, user)), user, k);
  }

  /** `Server.chat` on two distinct users who are both waiting removes
      exactly those two and keeps everyone else in order. */
  lemma StartChatRemovesPair(eq: UserEq, s: Server, a: User, b: User, port: int)
    requires IsEquivalence(eq)
    requires NoDuplicates(eq, s.users)
    requires Contains(eq, s.users, a) && Contains(eq, s.users, b) && !eq(a, b)
    ensures StartChat(eq, s, (a, b), port)
         == (s.(users := Without(eq, Without(eq, s.users, a), b)), Ok(Chat((a, b), s.host, port)))
    ensures NoDuplicates(eq, StartChat(eq, s, (a, b), port).0.users)
  {
    var afterFirst := Without(eq, s.users, a);
    SecondStillWaiting(eq, s.users, a, b);
    RemoveUnique(eq, s.users, a);
    RemoveUnique(eq, afterFirst, b);
    assert Remove(eq, s.users, a) == Ok(afterFirst);
    assert Remove(eq, afterFirst, b) == Ok(Without(eq, afterFirst, b));
    WithoutKeepsNoDuplicates(eq, afterFirst, b);
  }

  /** Once the first user of a pair is taken out, the second is still
      there and the directory still has no duplicates. */
  lemma SecondStillWaiting(eq: UserEq, users: seq<User>, a: User, b: User)
    requires IsEquivalence(eq)
    requires NoDuplicates(eq, users)
    requires Contains(eq, users, b) && !eq(a, b)
    ensures Contains(eq, Without(eq, users, a), b)
    ensures NoDuplicates(eq, Without(eq, users, a))
  {
    WithoutKeepsNoDuplicates(eq, users, a);
    var k :| 0 <= k < |users| && eq(b, users[k]);
    assert !eq(users[k], a);
    ContainsAfterWithout(eq, users, a, b, k);
  }

  /** An entry that is not `a` survives taking out the entries equal to `a`. */
  lemma {:induction false} ContainsAfterWithout(eq: UserEq, users: seq<User>, a: User, b: User, k: nat)
    requires k < |users| && eq(b, users[k]) && !eq(users[k], a)
    ensures Contains(eq, Without(eq, users, a), b)
    decreases |users|
  {
    if k > 0 {
      ContainsAfterWithout(eq, users[1..], a, b, k - 1);
      var rest := Without(eq, users[1..], a);
      var j :| 0 <= j < |rest| && eq(b, rest[j]);
      if !eq(users[0], a) {
        assert Without(eq, users, a)[j + 1] == rest[j];
      }
    } else {
      assert Without(eq, users, a)[0] == users[0];
    }
  }

  /** The user `alice` as the server sees her. */
  const Alice := User("alice", "127.0.0.1", 8745)

  /** The bytes of the text `help`. */
  const HelpBytes: seq<byte> := [0x68, 0x65, 0x6C, 0x70]

  /** The payload `help` is the single word `help`. */
  lemma HelpWords()
    ensures Coordinator.Words(HelpBytes) == ["help"]
  {
    assert BytesToText(HelpBytes) == "help";
    StripUnchanged("help");
    assert ' ' !in "help";
  }

  /** As written, `handle_message` raises for the `help` request that the
      corrected dispatch answers with the usage line. */
  lemma HelpRequestAsWritten()
    ensures var m := Codec.Message(Codec.Header(Flags.CHAT, Flags.ERR, Flags.NORE, [], 4), HelpBytes);
      && HandleMessageAsWritten(ByName, InitialServer, Alice, m).1 == Err(AttributeError)
      && HandleMessage(ByName, InitialServer, Alice, m) == (InitialServer.(users := [Alice]), Ok(Usage))
  {
    HelpWords();
    assert AddUser(ByName, [], Alice) == [Alice];
  }
}

=== FILE: flags.dfy ===
/** The three one-byte flag fields of a SIMP header. Each variant is written
    as its declared value in one big-endian byte; a byte that names no
    declared variant decodes to `UndeclaredFlag`. */
module Flags {
  import opened Results
  import opened Bytes

  /** `Type`: what the payload of a message means. */
  datatype MsgType = CONTROL | CHAT

  /** `Operation`: the control operation a message carries. */
  datatype Operation = ERR | SYN | ACK | FIN

  /** `Sequence`: whether a message is a resend. */
  datatype SeqFlag = RE | NORE

  function TypeValue(t: MsgType): byte
  {
    match t
    case CONTROL => 1
    case CHAT => 2
  }

  function OpValue(op: Operation): byte
  {
    match op
    case ERR => 0x0
    case SYN => 0x2
    case ACK => 0x4
    case FIN => 0x8
  }

  function SeqValue(s: SeqFlag): byte
  {
    match s
    case RE => 1
    case NORE => 2
  }

  /** The member name `Operation.__str__` renders. */
  function OpName(op: Operation): string
  {
    match op
    case ERR => "ERR"
    case SYN => "SYN"
    case ACK => "ACK"
    case FIN => "FIN"
  }

  /** `Type.from_bytes`: the declared variant whose value the bytes hold. */
  function TypeFromBytes(data: seq<byte>): (r: Result<MsgType>)
    ensures r.Ok? ==> TypeValue(r.value) as int == FromBigEndian(data)
    ensures (exists t: MsgType :: TypeValue(t) as int == FromBigEndian(data)) ==> r.Ok?
  {
    match FromBigEndian(data)
    case 1 => Ok(CONTROL)
    case 2 => Ok(CHAT)
    case v => Err(UndeclaredFlag(v))
  }

  /** `Type.into_bytes`: one byte holding the declared value, which decodes
      back to the same variant. */
  function TypeIntoBytes(t: MsgType): (r: seq<byte>)
    ensures |r| == 1 && FromBigEndian(r) == TypeValue(t) as int
    ensures TypeFromBytes(r) == Ok(t)
  {
    EncodeBigEndian(TypeValue(t) as nat, 1)
  }

  /** `Operation.from_bytes`. */
  function OpFromBytes(data: seq<byte>): (r: Result<Operation>)
    ensures r.Ok? ==> OpValue(r.value) as int == FromBigEndian(data)
    ensures (exists op: Operation :: OpValue(op) as int == FromBigEndian(data)) ==> r.Ok?
  {
    match FromBigEndian(data)
    case 0 => Ok(ERR)
    case 2 => Ok(SYN)
    case 4 => Ok(ACK)
    case 8 => Ok(FIN)
    case v => Err(UndeclaredFlag(v))
  }

  /** `Operation.into_bytes`. */
  function OpIntoBytes(op: Operation): (r: seq<byte>)
    ensures |r| == 1 && FromBigEndian(r) == OpValue(op) as int
    ensures OpFromBytes(r) == Ok(op)
  {
    EncodeBigEndian(OpValue(op) as nat, 1)
  }

  /** `Sequence.from_bytes`. */
  function SeqFromBytes(data: seq<byte>): (r: Result<SeqFlag>)
    ensures r.Ok? ==> SeqValue(r.value) as int == FromBigEndian(data)
    ensures (exists s: SeqFlag :: SeqValue(s) as int == FromBigEndian(data)) ==> r.Ok?
  {
    match FromBigEndian(data)
    case 1 => Ok(RE)
    case 2 => Ok(NORE)
    case v => Err(UndeclaredFlag(v))
  }

  /** `Sequence.into_bytes`. */
  function SeqIntoBytes(s: SeqFlag): (r: seq<byte>)
    ensures |r| == 1 && FromBigEndian(r) == SeqValue(s) as int
    ensures SeqFromBytes(r) == Ok(s)
  {
    EncodeBigEndian(SeqValue(s) as nat, 1)
  }
}

=== FILE: results.dfy ===
/** Outcomes of operations that can raise in the SIMP server and codec. */
module Results {

  /** The exceptions the modelled code can raise, named after the Python ones. */
  datatype Error =
    | OverflowError        // `int.to_bytes` given a value that does not fit
    | ValueError           // `list.remove` of an absent user, `int()` of a non-number
    | IndexError           // list subscript out of range
    | AttributeError       // attribute lookup on an object that lacks it
    | UndeclaredFlag(value: nat)  // a flag byte that names no declared variant

  /** Either a value or the exception that replaced it; usable with `:-`. */
  datatype Result<+T> = Ok(value: T) | Err(error: Error) {

    predicate IsFailure() {
      Err?
    }

    function PropagateFailure<U>(): Result<U>
      requires Err?
    {
      Err(error)
    }

    function Extract(): T
      requires Ok?
    {
      value
    }
  }

  datatype Option<+T> = None | Some(value: T)
}

=== FILE: text.dfy ===
/** The string operations the server applies to payload text: `str.strip`,
    `str.split(" ")`, `str.join`, `int()` and the decimal rendering of an
    index in an f-string. */
module Text {
  import opened Results
  import opened Bytes

  /** Whitespace as `str.isspace` sees it, restricted to ASCII. */
  predicate IsSpace(c: char)
  {
    c == ' ' || c == '\t' || c == '\n' || c == '\r' || c == '\U{0B}' || c == '\U{0C}'
    || ('\U{1C}' <= c <= '\U{1F}')
  }

  /** Payload bytes read as text one character per byte; this agrees with
      UTF-8 decoding on ASCII. */
  function BytesToText(b: seq<byte>): (s: string)
    ensures |s| == |b|
    ensures forall k | 0 <= k < |b| :: s[k] as int == b[k] as int
  {
    seq(|b|, k requires 0 <= k < |b| => b[k] as int as char)
  }

  /** The number of whitespace characters `s` starts with. */
  function LeadingSpaces(s: string): (n: nat)
    ensures n <= |s|
    ensures forall k | 0 <= k < n :: IsSpace(s[k])
    ensures n < |s| ==> !IsSpace(s[n])
  {
    if |s| == 0 || !IsSpace(s[0]) then 0
    else 1 + LeadingSpaces(s[1..])
  }

  /** The number of whitespace characters `s` ends with. */
  function TrailingSpaces(s: string): (n: nat)
    ensures n <= |s|
    ensures forall k | |s| - n <= k < |s| :: IsSpace(s[k])
    ensures n < |s| ==> !IsSpace(s[|s| - n - 1])
  {
    if |s| == 0 || !IsSpace(s[|s| - 1]) then 0
    else 1 + TrailingSpaces(s[..|s| - 1])
  }

  /** Where `s.strip()` cuts: everything before the first bound and from
      the second on is whitespace, and the characters at both ends of what
      is kept are not. */
  function StripBounds(s: string): (b: (nat, nat))
    ensures b.0 <= b.1 <= |s|
    ensures forall k | 0 <= k < b.0 :: IsSpace(s[k])
    ensures forall k | b.1 <= k < |s| :: IsSpace(s[k])
    ensures b.0 < b.1 ==> !IsSpace(s[b.0]) && !IsSpace(s[b.1 - 1])
  {
    var i := LeadingSpaces(s);
    if i == |s| then (i, i) else (i, |s| - TrailingSpaces(s))
  }

  /** `s.strip()`: `s` with whitespace removed from both ends. */
  function Strip(s: string): (r: string)
    ensures |r| <= |s|
    ensures |r| > 0 ==> !IsSpace(r[0]) && !IsSpace(r[|r| - 1])
  {
    var b := StripBounds(s);
    s[b.0..b.1]
  }

  /** The stripped text is what lies between the cut points: `s` is its
      whitespace prefix, then `Strip(s)`, then its whitespace suffix. */
  lemma StripIsMiddle(s: string)
    ensures var b := StripBounds(s); s == s[..b.0] + Strip(s) + s[b.1..]
  {
    var b := StripBounds(s);
    assert s == s[..b.0] + s[b.0..b.1] + s[b.1..];
  }

  /** `sep.join(parts)`. */
  function Join(parts: seq<string>, sep: char): string
  {
    if |parts| == 0 then ""
    else if |parts| == 1 then parts[0]
    else parts[0] + [sep] + Join(parts[1..], sep)
  }

  /** `s.split(sep)` for a one-character separator: the pieces between
      occurrences of `sep`, empty ones included. There is always at least one
      piece, none contains `sep`, and joining them restores `s`. */
  function Split(s: string, sep: char): (parts: seq<string>)
    ensures |parts| >= 1
    ensures forall k | 0 <= k < |parts| :: sep !in parts[k]
    ensures Join(parts, sep) == s
    decreases |s|
  {
    if sep !in s then [s]
    else
      var i := FirstIndex(s, sep);
      var rest := Split(s[i + 1..], sep);
      assert s == s[..i] + [sep] + s[i + 1..];
      [s[..i]] + rest
  }

  /** The position of the first `c` in `s`. */
  function FirstIndex(s: string, c: char): (i: nat)
    requires c in s
    ensures i < |s| && s[i] == c && c !in s[..i]
  {
    if s[0] == c then 0
    else
      var i := 1 + FirstIndex(s[1..], c);
      assert s[..i] == [s[0]] + s[1..][..i - 1];
      i
  }

  /** The first occurrence is the one with no occurrence before it. */
  lemma {:induction false} FirstIndexOf(s: string, c: char, j: nat)
    requires j < |s| && s[j] == c && c !in s[..j]
    ensures FirstIndex(s, c) == j
  {
    if j > 0 {
      assert s[0] == s[..j][0];
      assert s[1..][j - 1] == c;
      assert s[1..][..j - 1] == s[..j][1..];
      FirstIndexOf(s[1..], c, j - 1);
    }
  }

  /** Splitting undoes joining when no part contains the separator. */
  lemma {:induction false} SplitJoin(parts: seq<string>, sep: char)
    requires |parts| >= 1
    requires forall k | 0 <= k < |parts| :: sep !in parts[k]
    ensures Split(Join(parts, sep), sep) == parts
    decreases |parts|
  {
    if |parts| > 1 {
      var s := Join(parts, sep);
      var first, rest := parts[0], Join(parts[1..], sep);
      assert s == first + ([sep] + rest);
      assert s[|first|] == sep;
      assert s[..|first|] == first;
      FirstIndexOf(s, sep, |first|);
      assert s[|first| + 1..] == rest;
      SplitJoin(parts[1..], sep);
      assert Split(s, sep) == [first] + Split(rest, sep);
      assert parts == [first] + parts[1..];
    }
  }

  function DigitChar(d: nat): char
    requires d < 10
  {
    "0123456789"[d]
  }

  predicate IsDigit(c: char)
  {
    '0' <= c <= '9'
  }

  /** The decimal numeral `f"{n}"` writes for a natural number: digits only,
      no leading zero. */
  function NatToString(n: nat): (s: string)
    ensures |s| >= 1
    ensures forall k | 0 <= k < |s| :: IsDigit(s[k])
    ensures |s| > 1 ==> s[0] != '0'
  {
    if n < 10 then [DigitChar(n)]
    else NatToString(n / 10) + [DigitChar(n % 10)]
  }

  /** The value of a string of decimal digits. */
  function DigitsValue(s: string): nat
    requires forall k | 0 <= k < |s| :: IsDigit(s[k])
  {
    if |s| == 0 then 0
    else
      assert IsDigit(s[|s| - 1]);
      DigitsValue(s[..|s| - 1]) * 10 + (s[|s| - 1] as int - '0' as int)
  }

  predicate AllDigits(s: string)
  {
    forall k | 0 <= k < |s| :: IsDigit(s[k])
  }

  /** `int()` after the surrounding whitespace is gone: an optional sign and
      at least one decimal digit, or `ValueError`. A plain digit string
      reads as its value. */
  function ParseSigned(t: string): (r: Result<int>)
    ensures r.Ok? ==> exists k | 0 <= k < |t| :: IsDigit(t[k])
    ensures r.Err? ==> r.error == ValueError
    ensures |t| > 0 && AllDigits(t) ==> r == Ok(DigitsValue(t))
    ensures r.Ok? <==>
      || (|t| > 0 && AllDigits(t))
      || (|t| > 1 && (t[0] == '+' || t[0] == '-') && AllDigits(t[1..]))
    ensures r.Ok? && t[0] == '+' ==> r.value == DigitsValue(t[1..])
    ensures r.Ok? && t[0] == '-' ==> r.value == 0 - DigitsValue(t[1..]) as int
  {
    var signed := |t| > 0 && (t[0] == '-' || t[0] == '+');
    var digits := if signed then t[1..] else t;
    if |digits| == 0 || !AllDigits(digits) then
      Err(ValueError)
    else
      var v: int := DigitsValue(digits);
      assert IsDigit(t[|t| - 1]);
      Ok(if signed && t[0] == '-' then -v else v)
  }

  /** A digit of the stripped text is a digit of the text. */
  lemma StripDigit(s: string)
    ensures (exists k | 0 <= k < |Strip(s)| :: IsDigit(Strip(s)[k])) ==>
      exists k | 0 <= k < |s| :: IsDigit(s[k])
  {
    var b := StripBounds(s);
    var t := Strip(s);
    forall k | 0 <= k < |t| && IsDigit(t[k])
      ensures IsDigit(s[b.0 + k])
    {
      assert t[k] == s[b.0 + k];
    }
  }

  /** `int(s)` for ASCII input: surrounding whitespace, an optional sign and
      at least one decimal digit; anything else raises `ValueError`. */
  function ParseInt(s: string): (r: Result<int>)
    ensures r.Ok? ==> exists k | 0 <= k < |s| :: IsDigit(s[k])
    ensures r.Err? ==> r.error == ValueError
  {
    var t := Strip(s);
    var r := ParseSigned(t);
    StripDigit(s);
    r
  }

  /** Reading back a rendered number gives the number. */
  lemma {:induction false} DigitsValueOfNatToString(n: nat)
    ensures DigitsValue(NatToString(n)) == n
  {
    if n >= 10 {
      var s := NatToString(n);
      assert s[..|s| - 1] == NatToString(n / 10);
      DigitsValueOfNatToString(n / 10);
    }
  }

  /** `int(f"{n}") == n`: the index a listing prints is the index `int()`
      reads. */
  lemma ParseNatToString(n: nat)
    ensures ParseInt(NatToString(n)) == Ok(n)
  {
    ParseIntDigits(NatToString(n));
    DigitsValueOfNatToString(n);
  }

  /** `int()` of a string of decimal digits is the digits' value. */
  lemma ParseIntDigits(s: string)
    requires |s| > 0
    requires forall k | 0 <= k < |s| :: IsDigit(s[k])
    ensures ParseInt(s) == Ok(DigitsValue(s))
  {
    assert IsDigit(s[0]) && IsDigit(s[|s| - 1]);
    StripUnchanged(s);
    assert AllDigits(s);
  }

  /** A string that neither starts nor ends with whitespace is its own strip. */
  lemma StripUnchanged(s: string)
    requires |s| > 0 && !IsSpace(s[0]) && !IsSpace(s[|s| - 1])
    ensures Strip(s) == s
  {
    assert LeadingSpaces(s) == 0;
    assert TrailingSpaces(s) == 0;
    assert StripBounds(s) == (0, |s|);
  }
}

=== FILE: users.dfy ===
/** The server's user directory: a list of users, compared with the users'
    own equality, which this model takes as a parameter `eq`. The lemmas
    assume only that `eq` is an equivalence; `ByName` is the intended one. */
module Users {
  import opened Results

  /** A client as the server knows it: the name from the message header and
      the address the datagram came from. */
  datatype User = User(name: string, host: string, port: int)

  /** `User.__eq__`. */
  type UserEq = (User, User) -> bool

  /** Two users are the same user when their names agree. */
  function ByName(a: User, b: User): bool
  {
    a.name == b.name
  }

  ghost predicate Reflexive(eq: UserEq)
  {
    forall a: User :: eq(a, a)
  }

  ghost predicate Symmetric(eq: UserEq)
  {
    forall a: User, b: User :: eq(a, b) ==> eq(b, a)
  }

  ghost predicate Transitive(eq: UserEq)
  {
    forall a: User, b: User, c: User :: eq(a, b) && eq(b, c) ==> eq(a, c)
  }

  ghost predicate IsEquivalence(eq: UserEq)
  {
    Reflexive(eq) && Symmetric(eq) && Transitive(eq)
  }

  lemma ByNameIsEquivalence()
    ensures IsEquivalence(ByName)
  {
  }

  /** `any(user == u for u in users)`. */
  predicate Contains(eq: UserEq, users: seq<User>, user: User)
  {
    exists k | 0 <= k < |users| :: eq(user, users[k])
  }

  /** No two entries of the directory are the same user. */
  predicate NoDuplicates(eq: UserEq, users: seq<User>)
  {
    forall i, j | 0 <= i < j < |users| :: !eq(users[i], users[j])
  }

  /** `Server.add_user`: append the user unless an equal one is present.
      The existing entries keep their places, and the list grows by one
      exactly when the user was absent, the new last entry being the user. */
  function AddUser(eq: UserEq, users: seq<User>, user: User): (r: seq<User>)
    ensures |users| <= |r| <= |users| + 1
    ensures r[..|users|] == users
    ensures |r| == |users| <==> Contains(eq, users, user)
    ensures |r| > |users| ==> r[|users|] == user
    ensures Reflexive(eq) ==> Contains(eq, r, user)
  {
    if Contains(eq, users, user) then users
    else
      assert eq(user, user) ==> eq(user, (users + [user])[|users|]);
      users + [user]
  }

  /** The position `list.remove` removes: the first entry equal to the user. */
  function IndexOf(eq: UserEq, users: seq<User>, user: User): (r: Option<nat>)
    ensures r.Some? ==> r.value < |users| && eq(users[r.value], user)
    ensures r.Some? ==> forall j | 0 <= j < r.value :: !eq(users[j], user)
    ensures r.None? ==> forall j | 0 <= j < |users| :: !eq(users[j], user)
  {
    if |users| == 0 then None
    else if eq(users[0], user) then Some(0)
    else
      match IndexOf(eq, users[1..], user)
      case None => None
      case Some(i) => Some(i + 1)
  }

  /** `list.remove(user)`: drop the first entry equal to the user, or raise
      `ValueError` when there is none. */
  function Remove(eq: UserEq, users: seq<User>, user: User): (r: Result<seq<User>>)
    ensures r.Ok? <==> exists k | 0 <= k < |users| :: eq(users[k], user)
    ensures r.Err? ==> r.error == ValueError
    ensures r.Ok? ==> |r.value| == |users| - 1
    ensures r.Ok? ==> exists i | 0 <= i < |users| ::
      && eq(users[i], user)
      && (forall j | 0 <= j < i :: !eq(users[j], user))
      && r.value == users[..i] + users[i + 1..]
  {
    match IndexOf(eq, users, user)
    case None => Err(ValueError)
    case Some(i) => Ok(users[..i] + users[i + 1..])
  }

  /** The entries that are not the given user, in their order. */
  function Without(eq: UserEq, users: seq<User>, user: User): (r: seq<User>)
    ensures |r| <= |users|
    ensures forall k | 0 <= k < |r| :: !eq(r[k], user)
    ensures forall k | 0 <= k < |r| :: r[k] in users
  {
    if |users| == 0 then []
    else if eq(users[0], user) then Without(eq, users[1..], user)
    else [users[0]] + Without(eq, users[1..], user)
  }

  lemma {:induction false} WithoutAppend(eq: UserEq, a: seq<User>, b: seq<User>, user: User)
    ensures Without(eq, a + b, user) == Without(eq, a, user) + Without(eq, b, user)
    decreases |a|
  {
    if |a| > 0 {
      assert (a + b)[0] == a[0];
      assert (a + b)[1..] == a[1..] + b;
      WithoutAppend(eq, a[1..], b, user);
      if eq(a[0], user) {
        assert Without(eq, a + b, user) == Without(eq, a[1..] + b, user);
      } else {
        assert Without(eq, a + b, user) == [a[0]] + Without(eq, a[1..] + b, user);
      }
    } else {
      assert a + b == b;
    }
  }

  lemma {:induction false} WithoutNone(eq: UserEq, users: seq<User>, user: User)
    requires forall k | 0 <= k < |users| :: !eq(users[k], user)
    ensures Without(eq, users, user) == users
    decreases |users|
  {
    if |users| > 0 {
      WithoutNone(eq, users[1..], user);
    }
  }

  /** When exactly the entry at `i` is the user, taking out the entries equal
      to the user takes out that one entry. */
  lemma WithoutSingle(eq: UserEq, users: seq<User>, user: User, i: nat)
    requires i < |users| && eq(users[i], user)
    requires forall j | 0 <= j < |users| && j != i :: !eq(users[j], user)
    ensures Without(eq, users, user) == users[..i] + users[i + 1..]
  {
    var left, right := users[..i], users[i + 1..];
    assert users == (left + [users[i]]) + right;
    WithoutNone(eq, left, user);
    WithoutNone(eq, right, user);
    assert Without(eq, [users[i]], user) == [];
    WithoutAppend(eq, left, [users[i]], user);
    assert Without(eq, left + [users[i]], user) == left;
    WithoutAppend(eq, left + [users[i]], right, user);
  }

  /** In a directory without duplicates, `list.remove` takes out exactly the
      entries equal to the user, which was one entry, and the rest keep their
      order; afterwards the user is absent. */
  lemma RemoveUnique(eq: UserEq, users: seq<User>, user: User)
    requires IsEquivalence(eq)
    requires NoDuplicates(eq, users)
    requires Contains(eq, users, user)
    ensures Remove(eq, users, user) == Ok(Without(eq, users, user))
    ensures !Contains(eq, Without(eq, users, user), user)
  {
    var k :| 0 <= k < |users| && eq(user, users[k]);
    assert eq(users[k], user);
    var i := IndexOf(eq, users, user).value;
    forall j | 0 <= j < |users| && j != i
      ensures !eq(users[j], user)
    {
      var lo, hi := if i < j then i else j, if i < j then j else i;
      assert !eq(users[lo], users[hi]);
      var ui, uj := users[i], users[j];
      assert eq(uj, user) ==> eq(uj, ui) && eq(ui, uj);
    }
    WithoutSingle(eq, users, user, i);
    var rest := Without(eq, users, user);
    forall j | 0 <= j < |rest|
      ensures !eq(user, rest[j])
    {
      assert !eq(rest[j], user);
    }
  }

  /** Adding a user a second time changes nothing. */
  lemma AddUserIdempotent(eq: UserEq, users: seq<User>, user: User)
    requires Reflexive(eq)
    ensures AddUser(eq, AddUser(eq, users, user), user) == AddUser(eq, users, user)
  {
  }

  /** `add_user` keeps the directory free of duplicates. */
  lemma AddUserKeepsNoDuplicates(eq: UserEq, users: seq<User>, user: User)
    requires Symmetric(eq)
    requires NoDuplicates(eq, users)
    ensures NoDuplicates(eq, AddUser(eq, users, user))
  {
    var r := AddUser(eq, users, user);
    if |r| > |users| {
      forall i, j | 0 <= i < j < |r|
        ensures !eq(r[i], r[j])
      {
        if j == |users| {
          assert !eq(user, users[i]);
        } else {
          assert r[i] == users[i] && r[j] == users[j];
        }
      }
    }
  }

  /** Taking entries out keeps the directory free of duplicates. */
  lemma {:induction false} WithoutKeepsNoDuplicates(eq: UserEq, users: seq<User>, user: User)
    requires NoDuplicates(eq, users)
    ensures NoDuplicates(eq, Without(eq, users, user))
    decreases |users|
  {
    if |users| > 0 {
      WithoutKeepsNoDuplicates(eq, users[1..], user);
      var rest := Without(eq, users[1..], user);
      forall k | 0 <= k < |rest|
        ensures !eq(users[0], rest[k])
      {
        var m :| 0 <= m < |users[1..]| && users[1..][m] == rest[k];
        assert users[1 + m] == rest[k];
      }
    }
  }
}
